=== FILE: README.md ===
# Structural JSON differ — a verified model

`validate/json_diff.py` compares two JSON-like trees in two stages.

1. **Preparation** (`prepare_diff_input`) canonicalises a raw tree under a `DiffConfig` tree:
   - an empty list becomes `{}`;
   - a list of scalars becomes a set;
   - a list of dictionaries becomes a dictionary of records keyed by a primary key (the first record per key wins);
   - a dictionary is rebuilt without its ignored keys, each child prepared under its child configuration;
   - scalars pass through;
   - anything else raises.
2. **Comparison** (`diff_json`) walks two canonical trees. It reports:
   - a `TypeDiff` where the runtime types differ;
   - a `ValueDiff` where two scalars of one type differ;
   - a `Miss` naming the side that lacks a key or set element;
   - a `DictDiff` collecting the children of a dictionary or set. A `DictDiff` is surfaced only if it has children.

The model follows that structure, one module per part:

- `JsonValues` holds the values. `Scalar` carries its exact Python type (`int`, `bool`, `float`, `str`). `Key` is a scalar or `None`. `Canon` is the canonical tree: scalar, dictionary, or set of scalars. `Error` lists the exceptions.
- `JsonDiff` holds the comparator.
  - `DiffOf` is the result of `diff_json` as a function.
  - `DictDiffBuilder` is the mutable `DictDiff` whose `children` only grow through `AddChild`.
  - `DiffJson` is the loop-based procedure of the source, proved equal to `DiffOf`. Its two loops run over the key union in any order.
- `DiffLaws` holds what the comparator guarantees:
  - applying a diff to the source recovers the destination;
  - "no diff" exactly for equal values;
  - swapping the arguments swaps every side;
  - the shape of the result;
  - the classification of each key.
- `DiffRender` models the ordering part of `DictDiff.__str__`:
  - which keys Python can sort, and the TypeError otherwise;
  - the ascending order;
  - the uniqueness of that order. Two diff trees built in different insertion orders therefore render alike.
- `PrepareInput` holds preparation.
  - `NewDiffConfig` is `DiffConfig.__init__`.
  - `Prepare`, `Records` and `Entries` are `prepare_diff_input` as functions.
  - `PrepareDiffInput`, `PrepareRecords`, `PrepareEntries` and `FindPrimaryKeyValue` are the source's loops, proved equal to them.
- `PrepareLaws` holds what preparation guarantees:
  - the records kept from a keyed list and their keys;
  - the entries kept from a dictionary;
  - the consequence of the default configuration.
- `DiffScenarios` holds worked examples on small concrete inputs.

Errors are values: `Result<Canon, Error>`. They stand for the following exceptions:

- `NotImplementedError` becomes `UnsupportedType`.
- The configuration `AssertionError` becomes `MissingConfig`.
- The `TypeError` of an unhashable primary-key value becomes `Unhashable`.
- The `TypeError` of `sorted` on incomparable keys becomes `Unorderable`.

The `assert key not in self.children` of `add_child` is a precondition of `AddChild`. `DiffJson` is proved never to violate it.

Python's `str(converted)`, used for the `"__HASH__"` primary key, is a parameter `render: Canon -> string` of preparation. Every property holds for any `render`.

The default configuration is a quirk of the code. `DiffConfig()` normalises the primary key `None` to `[None]`. That list is truthy, so it passes the configuration assertion. Every record then lacks a field named `None` and is stored under the key `None`. Only the first record of the list survives. The model keeps this behaviour as written, and `DefaultConfigKeepsFirstRecord` states it.

## Model

| member | source | states |
|---|---|---|
| JsonValues.KindOf | validate/json_diff.py:96 | `type(v)`: a canonical value is a scalar exactly when its type is none of `dict` and `set`, and a dictionary exactly when its type is `dict` |
| JsonDiff.DiffOf | validate/json_diff.py:87-127 | `diff_json` as a function. Its result is never a bare `Miss`, and a `DictDiff` result always has children. Its other properties are the DiffLaws rows |
| JsonDiff.DiffJson | validate/json_diff.py:87-127 | The procedure returns exactly `DiffOf(source, destination)`, whatever order the loops visit keys in |
| JsonDiff.AddDictChildren | validate/json_diff.py:102-112 | After the loop over the union of both key sets, the builder holds exactly one child per key whose classification gives a diff |
| JsonDiff.AddSetChildren | validate/json_diff.py:115-121 | After the loop over the union of two sets, the builder holds exactly one `Miss` per element found on one side only |
| JsonDiff.DictDiffBuilder.constructor | validate/json_diff.py:54-56 | A new `DictDiff` has no children |
| JsonDiff.DictDiffBuilder.AddChild | validate/json_diff.py:64-66 | Adds one child under a key that must be new, and leaves every other child unchanged |
| JsonDiff.DictDiffBuilder.HasDiff | validate/json_diff.py:68-69 | True exactly when some child exists |
| JsonDiff.Collapse | validate/json_diff.py:113-114 | No diff exactly when there are no children, else a `DictDiff` of exactly those children |
| DiffLaws.DiffShape | validate/json_diff.py:96-101 | `TypeDiff` exactly when the runtime types differ (1 vs 1.0, True vs 1). `ValueDiff` exactly for unequal scalars of one type. `DictDiff` exactly for unequal dictionaries or sets. Never a bare `Miss`. No empty `DictDiff` at any depth |
| DiffLaws.DictChildrenClassify | validate/json_diff.py:104-112 | A key only in the destination gives `Miss(SOURCE, destination[key])`. A key only in the source gives `Miss(DESTINATION, source[key])`. A key in both gives a child exactly when the values differ, and that child is their diff |
| DiffLaws.SetChildrenClassify | validate/json_diff.py:117-121 | A key has a child exactly when it is an element of one side only. That child is a `Miss` naming the lacking side, with the element as its value |
| DiffLaws.NoDiffIffEqual | validate/json_diff.py:96-127 | `diff_json` returns `None` exactly when the two values are equal with the same type at every position. So `1` vs `1.0`, and `{"a": 1}` vs `{"a": True}`, give a diff even though Python's `==` holds for them |
| DiffLaws.Reflexive | validate/json_diff.py:96-127 | `diff_json(v, v)` is `None`; nested equal dictionaries collapse at every level |
| DiffLaws.PatchRecovers | validate/json_diff.py:104-121 | Applying the diff to the source yields the destination. So every discrepancy is recorded, and each `Miss` names the side that lacks the key |
| DiffLaws.DiffSwap | validate/json_diff.py:96-121 | Comparing in the other direction gives the same diff with source and destination, and the two `Miss` sides, exchanged |
| DiffRender.KeyLessOrder | validate/json_diff.py:59 | Python's `<` on keys of one sortable family (numbers, or strings) is a strict total order |
| DiffRender.SortedKeys | validate/json_diff.py:59 | `sorted` on mutually comparable keys yields an ascending sequence of exactly those keys |
| DiffRender.ChildOrder | validate/json_diff.py:59 | Sorting the children's keys succeeds exactly when every two of them are comparable, and otherwise raises TypeError. On success the result is ascending and holds exactly the children's keys |
| DiffRender.AscendingUnique | validate/json_diff.py:58-62 | Two ascending sequences of the same keys are equal. So the rendering, and the string-based `__eq__`, do not depend on insertion order |
| DiffRender.Render | validate/json_diff.py:34-81 | A leaf always renders as itself, because a leaf's `__str__` never raises. A `DictDiff` whose keys cannot all be compared raises TypeError. On success, a `DictDiff` renders as entries in ascending key order, holding exactly its children's keys, and any failure is that TypeError |
| DiffRender.RenderOkIff | validate/json_diff.py:58-59 | `str(diff)` succeeds exactly when every `DictDiff` level of the tree has keys that `sorted` accepts |
| PrepareInput.NewDiffConfig | validate/json_diff.py:149-156 | `"__HASH__"` selects the hash key. A list is kept. Any other value, `None` included, is wrapped in a one-element list. The result is falsy only for an empty list |
| PrepareInput.ScalarSet | validate/json_diff.py:182-183 | `set(data)` holds exactly the list's elements, with duplicates collapsed |
| PrepareInput.FirstPresent | validate/json_diff.py:195-198 | Finds nothing exactly when no candidate field is present. Otherwise it finds the value of the first candidate present |
| PrepareInput.RecordKeyChoice | validate/json_diff.py:190-200 | The key of a record, `RecordKey`. Under `"__HASH__"` it is `str()` of the prepared record. Otherwise it is `None` exactly when no candidate field is present. Otherwise it is the value of the first candidate present when that value is a scalar, and a `TypeError` (unhashable) when it is a dictionary or a set |
| PrepareInput.ComputeRecordKey | validate/json_diff.py:190-198 | The key computation of the record loop returns exactly `RecordKey` |
| PrepareInput.RecordsSize | validate/json_diff.py:188-206 | The keyed fold `Records` stores at most one entry per record, and at least one when the list is non-empty |
| PrepareInput.EntriesSize | validate/json_diff.py:214-221 | The dictionary fold `Entries` stores at most one entry per raw entry |
| PrepareInput.AddRecord | validate/json_diff.py:189-204 | One pass of the record loop turns the fold of the first `i` records into the fold of the first `i + 1` |
| PrepareInput.FindPrimaryKeyValue | validate/json_diff.py:195-198 | The loop with `break` finds the first candidate field present, as `FirstPresent` specifies |
| PrepareInput.Prepare | validate/json_diff.py:168-227 | `prepare_diff_input` branch by branch. A dictionary prepares, when it succeeds, to a dictionary. Its other properties are the PrepareLaws rows |
| PrepareInput.PrepareDiffInput | validate/json_diff.py:168-227 | The procedure returns exactly `Prepare(data, config)`, errors included |
| PrepareInput.PrepareRecords | validate/json_diff.py:184-206 | The record loop returns exactly the keyed fold `Records`. It stops at the first failing record with that record's error |
| PrepareInput.PrepareEntries | validate/json_diff.py:209-223 | The entry loop returns exactly the fold `Entries`. It stops at the first failing child with that child's error |
| PrepareInput.RecordsErrorSticks | validate/json_diff.py:188-206 | Once a record fails, the whole keyed list fails with that error, and no partial result is returned |
| PrepareInput.EntriesErrorSticks | validate/json_diff.py:214-221 | Once a child fails, the whole dictionary fails with that error |
| PrepareLaws.RecordsFirstWins | validate/json_diff.py:188-206 | The keyed list prepares exactly when every record prepares and yields a key. The result's keys are exactly the records' keys. Under each key sits the first record having it; later duplicates are dropped |
| PrepareLaws.PrepareKeyedList | validate/json_diff.py:184-206 | The same, for `prepare_diff_input` on a list of dictionaries under a configuration with a truthy primary key |
| PrepareLaws.EntriesKeep | validate/json_diff.py:214-221 | The entry fold succeeds exactly when every entry that is not ignored prepares. The result holds exactly the keys that are not ignored, each with its value prepared under `children.get(key)` |
| PrepareLaws.PrepareDict | validate/json_diff.py:209-223 | The same, for `prepare_diff_input` on any dictionary, the empty one included |
| PrepareLaws.PreparedKeysAreRaw | validate/json_diff.py:214-221 | Every key of a prepared dictionary is a key of the raw dictionary |
| PrepareLaws.PrepareScalarList | validate/json_diff.py:182-183 | A list starting with a scalar prepares to a set of exactly its elements, never larger than the list |
| PrepareLaws.PrepareNeedsConfig | validate/json_diff.py:184-186 | A list of dictionaries without a configuration whose primary key is truthy fails, before any record is read |
| PrepareLaws.DefaultConfigKeepsFirstRecord | validate/json_diff.py:184-204 | With `DiffConfig()` and records without a `None` field, the result, when it succeeds, has the single key `None`, holding the first record |
| DiffScenarios.TypeMismatchScenario | validate/json_diff.py:96-97 | `1` vs `1.0` and `True` vs `1` are `TypeDiff`s |
| DiffScenarios.MissingKeyScenario | validate/json_diff.py:107-108 | `{"a": 1}` vs `{}` gives one child `a -> Miss(DESTINATION, 1)` |
| DiffScenarios.SetScenario | validate/json_diff.py:115-123 | `{1,2,3}` vs `{2,3,4}` gives exactly `1 -> Miss(DESTINATION, 1)` and `4 -> Miss(SOURCE, 4)` |
| DiffScenarios.NestedCollapseScenario | validate/json_diff.py:102-114 | `{"a": {"b": 1}}` against itself gives no diff |
| DiffScenarios.ScalarListScenario | validate/json_diff.py:182-183 | `[3, 1, 2, 1]` prepares to `{1, 2, 3}` |
| DiffScenarios.IgnoreKeysScenario | validate/json_diff.py:216-217 | `{"a": 1, "b": 2}` with `b` ignored prepares to `{"a": 1}` |
| DiffScenarios.KeyedListScenario | validate/json_diff.py:188-204 | Records with ids 1, 2, 1 keyed by `id` keep the first two; the repeated id 1 is dropped |
| DiffScenarios.MissingConfigScenario | validate/json_diff.py:184-186 | A list of dictionaries without a configuration fails |

## Left out

- `init_diff_logger` (validate/json_diff.py:159-165) is not modelled. It only sets up logging handlers and a log file.
- `print_diff` (validate/json_diff.py:230-240) is not modelled. It only emits log lines, walking children in the sorted order that `DiffRender.ChildOrder` models.
- The duplicate diagnostic `logging.info` (validate/json_diff.py:203-204) is a no-op. It does not affect the result.
- The text of the `__str__` methods and `_diff_message` is not modelled. `DiffRender.Render` keeps only the structure and the key order.
- The string-based `__eq__` methods are replaced by structural equality of the datatypes.
- PrepareInput.Prepare: `str(converted)` for the `"__HASH__"` key is the parameter `render`, a function of the canonical value. Python's text also depends on dictionary insertion order and set iteration order, which the model does not capture.
- Python's equality across numeric types is not modelled. In Python `True == 1 == 1.0` share one dictionary slot or set element. Here they are distinct keys and elements. `DiffRender.TypeRank` only orders such keys, which a Python dictionary cannot hold side by side.
- Floats are real numbers here. NaN, infinities and rounding are not modelled. The source only compares floats with `!=` and `<`.
- PrepareInput.Prepare requires `WellFormed`, and so do PrepareInput.PrepareDiffInput, PrepareInput.PrepareRecords and PrepareInput.PrepareEntries. `WellFormed` means:
  - a list that starts with a scalar holds only scalars;
  - one that starts with a dictionary holds only dictionaries;
  - dictionary keys are distinct;
  - all of this at every depth, values under ignored keys included.

  Python accepts some of these inputs and raises `TypeError` or `NotImplementedError` on others. Two examples:
  - `[1, None]` becomes the set `{1, None}`, which a set of scalars cannot hold.
  - A later `None` record in a list of dictionaries raises `NotImplementedError`.

  A value under an ignored key is never read, so Python accepts any value there.

  None of these inputs is modelled.
- The `raise NotImplementedError` of `diff_json` (validate/json_diff.py:124-125) cannot be reached. A canonical value is always a scalar, a dictionary or a set, so `DiffJson` has no error result.
- Preparation reads the configuration only where an assertion runs:
  - Line 185, for a list of dictionaries, demands a `DiffConfig` whose primary key is truthy (validate/json_diff.py:185).
  - Line 212, for a non-empty dictionary, accepts a `DiffConfig` or any falsy value such as `None`, `0`, `""`, `[]` or `{}` (validate/json_diff.py:212). Lines 215 and 219 treat a falsy value as no configuration.
  - An empty dictionary, an empty list, a list of scalars and a scalar never read it.

  The model's configuration is `Option<DiffConfig>`, and its `None` stands for every falsy value. A truthy configuration that is not a `DiffConfig` is not modelled.
- The configuration failure is the `AssertionError` of the code, modelled as `MissingConfig`. The `"__HASH__"` key is `str()` of the prepared record, modelled as the parameter `render`.

=== FILE: diff.dfy ===
/** The comparator: the diff-result data model and `diff_json`, first as a
    specification function (DiffOf) and then as the loop-based method that the
    source runs (DiffJson), proved equal to it. */
module JsonDiff {
  import opened Wrappers
  import opened JsonValues

  /** The side that LACKS a key (`'SOURCE'` or `'DESTINATION'`). */
  datatype Side = Source | Destination

  /** A diff node. `TypeDiff` and `ValueDiff` keep both values, `Miss` keeps
      the value of the side that has the key, and `DictDiff` maps child keys to
      child diffs. "No diff" (Python's `None`) is `Option.None`. */
  datatype Diff =
    | TypeDiff(source: Canon, destination: Canon)
    | ValueDiff(source: Canon, destination: Canon)
    | Miss(side: Side, value: Canon)
    | DictDiff(children: map<Key, Diff>)

  /** A `DictDiff` is surfaced only when it has children (`has_diff`). */
  function Collapse(children: map<Key, Diff>): (r: Option<Diff>)
    ensures r.None? <==> children == map[]
    ensures r.Some? ==> r.value == DictDiff(children)
  {
    if |children| > 0 then Some(DictDiff(children)) else None
  }

  /** The result of `diff_json(source, destination)`. */
  function DiffOf(source: Canon, destination: Canon): (r: Option<Diff>)
    ensures r.Some? ==> !r.value.Miss?
    ensures r.Some? && r.value.DictDiff? ==> r.value.children != map[]
    decreases source, 2
  {
    if KindOf(source) != KindOf(destination) then
      Some(TypeDiff(source, destination))
    else
      match source
      case CScalar(_) =>
        if source != destination then Some(ValueDiff(source, destination)) else None
      case CDict(_) =>
        Collapse(DictChildren(source, destination))
      case CSet(s) =>
        Collapse(SetChildren(s, destination.elems))
  }

  /** The children of the `DictDiff` built for two dictionaries: one entry per
      key of the union that differs. */
  function DictChildren(source: Canon, destination: Canon): map<Key, Diff>
    requires source.CDict? && destination.CDict?
    decreases source, 1
  {
    map k | k in source.entries.Keys + destination.entries.Keys
              && ChildDiff(source, destination, k).Some?
      :: ChildDiff(source, destination, k).value
  }

  /** How one key of the union of two dictionaries is classified. */
  function ChildDiff(source: Canon, destination: Canon, key: Key): Option<Diff>
    requires source.CDict? && destination.CDict?
    decreases source, 0
  {
    var s, d := source.entries, destination.entries;
    if key !in s then
      (if key in d then Some(Miss(Source, d[key])) else None)
    else if key !in d then
      Some(Miss(Destination, s[key]))
    else
      DiffOf(s[key], d[key])
  }

  /** The children of the `DictDiff` built for two sets: each element found on
      one side only, keyed by the element itself. */
  function SetChildren(s: set<Scalar>, d: set<Scalar>): map<Key, Diff>
  {
    map e | e in s + d && (e !in s || e !in d)
      :: ScalarKey(e) := Miss(if e !in s then Source else Destination, CScalar(e))
  }

  /** The part of `m` whose keys are in `keys`. */
  function Restrict(m: map<Key, Diff>, keys: set<Key>): map<Key, Diff> {
    map k | k in m && k in keys :: m[k]
  }

  /** `DictDiff` while it is being built: a mutable `children` dictionary that
      only grows, one new key at a time. */
  class DictDiffBuilder {
    var children: map<Key, Diff>

    constructor ()
      ensures children == map[]
    {
      children := map[];
    }

    /** `add_child`: the source asserts that the key is new. */
    method AddChild(key: Key, diff: Diff)
      requires key !in children
      modifies this
      ensures children == old(children)[key := diff]
    {
      children := children[key := diff];
    }

    /** `has_diff`. */
    function HasDiff(): (b: bool)
      reads this
      ensures b <==> exists k :: k in children
    {
      |children| > 0
    }
  }

  /** `diff_json`. The dictionary and set branches fill a fresh `DictDiff`
      and return it only if it has children. */
  method DiffJson(source: Canon, destination: Canon) returns (r: Option<Diff>)
    ensures r == DiffOf(source, destination)
    decreases source, 1
  {
    if KindOf(source) != KindOf(destination) {
      return Some(TypeDiff(source, destination));
    }
    if source.CScalar? {
      if source != destination {
        return Some(ValueDiff(source, destination));
      }
    } else if source.CDict? {
      var diff := new DictDiffBuilder();
      AddDictChildren(diff, source, destination);
      if diff.HasDiff() {
        return Some(DictDiff(diff.children));
      }
    } else {
      var diff := new DictDiffBuilder();
      AddSetChildren(diff, source.elems, destination.elems);
      if diff.HasDiff() {
        return Some(DictDiff(diff.children));
      }
    }
    return None;
  }

  /** The loop of `diff_json` over the union of two dictionaries' keys, taken
      in any order; each key is added at most once. */
  method AddDictChildren(diff: DictDiffBuilder, source: Canon, destination: Canon)
    requires source.CDict? && destination.CDict?
    requires diff.children == map[]
    modifies diff
    ensures diff.children == DictChildren(source, destination)
    decreases source, 0
  {
    var s, d := source.entries, destination.entries;
    ghost var spec := DictChildren(source, destination);
    var keys := s.Keys + d.Keys;
    var remaining := keys;
    while remaining != {}
      invariant remaining <= keys
      invariant diff.children == Restrict(spec, keys - remaining)
      decreases remaining
    {
      var key :| key in remaining;
      ghost var visited := keys - remaining;
      if key !in s {
        diff.AddChild(key, Miss(Source, d[key]));
      } else if key !in d {
        diff.AddChild(key, Miss(Destination, s[key]));
      } else {
        var child := DiffJson(s[key], d[key]);
        assert child == ChildDiff(source, destination, key);
        if child.Some? {
          diff.AddChild(key, child.value);
        }
      }
      remaining := remaining - {key};
      assert keys - remaining == visited + {key};
    }
    assert keys - remaining == keys;
  }

  /** The loop of `diff_json` over the union of two sets. */
  method AddSetChildren(diff: DictDiffBuilder, s: set<Scalar>, d: set<Scalar>)
    requires diff.children == map[]
    modifies diff
    ensures diff.children == SetChildren(s, d)
  {
    ghost var spec := SetChildren(s, d);
    var keys := s + d;
    var remaining := keys;
    while remaining != {}
      invariant remaining <= keys
      invariant diff.children == Restrict(spec, set e | e in keys - remaining :: ScalarKey(e))
      decreases remaining
    {
      var key :| key in remaining;
      ghost var visited := keys - remaining;
      if key !in s {
        diff.AddChild(ScalarKey(key), Miss(Source, CScalar(key)));
      } else if key !in d {
        diff.AddChild(ScalarKey(key), Miss(Destination, CScalar(key)));
      }
      remaining := remaining - {key};
      assert keys - remaining == visited + {key};
    }
    assert keys - remaining == keys;
  }
}

=== FILE: diff_laws.dfy ===
/** What the comparator's result means. A diff, applied to the source, gives
    back the destination; read the other way round it is the same diff with
    the sides exchanged; and "no diff" is returned exactly for equal values. */
module DiffLaws {
  import opened Wrappers
  import opened JsonValues
  import opened JsonDiff

  function Opposite(side: Side): Side {
    match side
    case Source => Destination
    case Destination => Source
  }

  /** The diff seen from the other direction: source and destination swap. */
  function Swap(diff: Diff): Diff
    decreases diff, 1
  {
    match diff
    case TypeDiff(a, b) => TypeDiff(b, a)
    case ValueDiff(a, b) => ValueDiff(b, a)
    case Miss(side, v) => Miss(Opposite(side), v)
    case DictDiff(_) => DictDiff(SwapChildren(diff))
  }

  function SwapChildren(parent: Diff): map<Key, Diff>
    requires parent.DictDiff?
    decreases parent, 0
  {
    map k | k in parent.children :: Swap(parent.children[k])
  }

  function SwapResult(r: Option<Diff>): Option<Diff> {
    if r.None? then None else Some(Swap(r.value))
  }

  /** What the destination holds at a position, given what the source holds
      there (`None`: the key is absent) and the diff node for it. `Miss(SOURCE, v)`
      means only the destination has the key, `Miss(DESTINATION, _)` only the
      source. */
  function ApplyAt(at: Option<Canon>, diff: Diff): Option<Canon>
    decreases diff, 2
  {
    match diff
    case TypeDiff(_, dst) => Some(dst)
    case ValueDiff(_, dst) => Some(dst)
    case Miss(Source, v) => Some(v)
    case Miss(Destination, _) => None
    case DictDiff(ch) =>
      if at.Some? && at.value.CDict? then Some(CDict(PatchEntries(at.value.entries, diff)))
      else if at.Some? && at.value.CSet? then Some(CSet(PatchElems(at.value.elems, ch)))
      else at
  }

  function PatchEntries(m: map<Key, Canon>, parent: Diff): map<Key, Canon>
    requires parent.DictDiff?
    decreases parent, 1
  {
    map k | k in m.Keys + parent.children.Keys && EntryAfter(m, parent, k).Some?
      :: EntryAfter(m, parent, k).value
  }

  function EntryAfter(m: map<Key, Canon>, parent: Diff, k: Key): Option<Canon>
    requires parent.DictDiff?
    decreases parent, 0
  {
    var at := if k in m then Some(m[k]) else None;
    if k in parent.children then ApplyAt(at, parent.children[k]) else at
  }

  /** A set patched by the children of a set diff: elements missing on the
      source side are added, elements missing on the destination side removed. */
  function PatchElems(e: set<Scalar>, ch: map<Key, Diff>): set<Scalar> {
    (e + set k | k in ch && k.ScalarKey? && ch[k] == Miss(Source, CScalar(k.scalar)) :: k.scalar)
    - set k | k in ch && k.ScalarKey? && ch[k] == Miss(Destination, CScalar(k.scalar)) :: k.scalar
  }

  /** The source value with a whole `diff_json` result applied to it. */
  function Patch(source: Canon, r: Option<Diff>): Option<Canon> {
    if r.None? then Some(source) else ApplyAt(Some(source), r.value)
  }

  /** Every `DictDiff` in the tree has at least one child. */
  predicate Collapsed(diff: Diff)
    decreases diff
  {
    diff.DictDiff? ==>
      diff.children != map[] && forall k | k in diff.children :: Collapsed(diff.children[k])
  }

  lemma DictChildrenAt(s: Canon, d: Canon, k: Key)
    requires s.CDict? && d.CDict?
    ensures k in DictChildren(s, d) <==> ChildDiff(s, d, k).Some?
    ensures k in DictChildren(s, d) ==> DictChildren(s, d)[k] == ChildDiff(s, d, k).value
  {
  }

  lemma PatchElemsRecovers(s: set<Scalar>, d: set<Scalar>)
    ensures PatchElems(s, SetChildren(s, d)) == d
  {
    var ch := SetChildren(s, d);
    var added := set k | k in ch && k.ScalarKey? && ch[k] == Miss(Source, CScalar(k.scalar)) :: k.scalar;
    var removed := set k | k in ch && k.ScalarKey? && ch[k] == Miss(Destination, CScalar(k.scalar)) :: k.scalar;
    assert added == d - s by {
      forall e | e in d - s ensures e in added {
        assert ScalarKey(e) in ch;
      }
    }
    assert removed == s - d by {
      forall e | e in s - d ensures e in removed {
        assert ScalarKey(e) in ch;
      }
    }
  }

  /** One key of a patched dictionary, given that the recursive diff at that
      key already patches correctly. */
  lemma PatchEntryAt(s: Canon, d: Canon, k: Key)
    requires s.CDict? && d.CDict?
    requires k in s.entries && k in d.entries ==>
      Patch(s.entries[k], DiffOf(s.entries[k], d.entries[k])) == Some(d.entries[k])
    ensures EntryAfter(s.entries, DictDiff(DictChildren(s, d)), k)
         == if k in d.entries then Some(d.entries[k]) else None
  {
    var ch := DictChildren(s, d);
    var sm, dm := s.entries, d.entries;
    var e := EntryAfter(sm, DictDiff(ch), k);
    DictChildrenAt(s, d, k);
    if k in sm && k in dm {
      assert ChildDiff(s, d, k) == DiffOf(sm[k], dm[k]);
      if k in ch {
        assert e == ApplyAt(Some(sm[k]), ch[k]);
      }
    } else if k in sm {
      assert e == ApplyAt(Some(sm[k]), ch[k]);
    } else if k in dm {
      assert e == ApplyAt(None, ch[k]);
    }
  }

  lemma PatchEntriesRecover(s: Canon, d: Canon)
    requires s.CDict? && d.CDict?
    requires forall k | k in s.entries && k in d.entries ::
      Patch(s.entries[k], DiffOf(s.entries[k], d.entries[k])) == Some(d.entries[k])
    ensures PatchEntries(s.entries, DictDiff(DictChildren(s, d))) == d.entries
  {
    var p := PatchEntries(s.entries, DictDiff(DictChildren(s, d)));
    forall k ensures (k in p <==> k in d.entries) && (k in p ==> p[k] == d.entries[k]) {
      PatchEntryAt(s, d, k);
    }
  }

  /** Applying `diff_json(s, d)` to `s` yields `d`: the diff records every
      discrepancy, and each `Miss` names the side that lacks the key. */
  lemma {:induction false} PatchRecovers(s: Canon, d: Canon)
    ensures Patch(s, DiffOf(s, d)) == Some(d)
    decreases s
  {
    if KindOf(s) != KindOf(d) {
    } else if s.CScalar? {
    } else if s.CDict? {
      forall k | k in s.entries && k in d.entries
        ensures Patch(s.entries[k], DiffOf(s.entries[k], d.entries[k])) == Some(d.entries[k])
      {
        PatchRecovers(s.entries[k], d.entries[k]);
      }
      PatchDictRecovers(s, d);
    } else {
      PatchSetRecovers(s, d);
    }
  }

  /** The dictionary case of `PatchRecovers`, given that it holds for every
      shared key. */
  lemma PatchDictRecovers(s: Canon, d: Canon)
    requires s.CDict? && d.CDict?
    requires forall k | k in s.entries && k in d.entries ::
      Patch(s.entries[k], DiffOf(s.entries[k], d.entries[k])) == Some(d.entries[k])
    ensures Patch(s, DiffOf(s, d)) == Some(d)
  {
    PatchEntriesRecover(s, d);
    var ch := DictChildren(s, d);
    if ch == map[] {
      assert PatchEntries(s.entries, DictDiff(ch)) == s.entries;
    }
  }

  /** The set case of `PatchRecovers`. */
  lemma PatchSetRecovers(s: Canon, d: Canon)
    requires s.CSet? && d.CSet?
    ensures Patch(s, DiffOf(s, d)) == Some(d)
  {
    PatchElemsRecovers(s.elems, d.elems);
    if SetChildren(s.elems, d.elems) == map[] {
      assert PatchElems(s.elems, map[]) == s.elems;
    }
  }

  /** `diff_json` returns `None` exactly when the two values are equal; in
      particular `diff_json(v, v)` is `None`. */
  lemma {:induction false} NoDiffIffEqual(s: Canon, d: Canon)
    ensures DiffOf(s, d).None? <==> s == d
    decreases s
  {
    PatchRecovers(s, d);
    if s == d {
      Reflexive(s);
    }
  }

  lemma {:induction false} Reflexive(v: Canon)
    ensures DiffOf(v, v) == None
    decreases v
  {
    if v.CDict? {
      forall k | k in v.entries ensures DiffOf(v.entries[k], v.entries[k]) == None {
        Reflexive(v.entries[k]);
      }
      assert DictChildren(v, v) == map[];
    } else if v.CSet? {
      assert SetChildren(v.elems, v.elems) == map[];
    }
  }

  lemma SwapDictChildren(s: Canon, d: Canon)
    requires s.CDict? && d.CDict?
    requires forall k | k in s.entries && k in d.entries ::
      DiffOf(d.entries[k], s.entries[k]) == SwapResult(DiffOf(s.entries[k], d.entries[k]))
    ensures DictChildren(d, s) == SwapChildren(DictDiff(DictChildren(s, d)))
  {
    var ch, hc := DictChildren(s, d), DictChildren(d, s);
    forall k ensures (k in hc <==> k in ch) && (k in ch ==> hc[k] == Swap(ch[k])) {
      DictChildrenAt(s, d, k);
      DictChildrenAt(d, s, k);
      if k in s.entries && k in d.entries {
        assert ChildDiff(s, d, k) == DiffOf(s.entries[k], d.entries[k]);
        assert ChildDiff(d, s, k) == DiffOf(d.entries[k], s.entries[k]);
      }
    }
  }

  lemma SwapSetChildren(s: set<Scalar>, d: set<Scalar>)
    ensures SetChildren(d, s) == SwapChildren(DictDiff(SetChildren(s, d)))
  {
    var ch, hc := SetChildren(s, d), SetChildren(d, s);
    forall k ensures (k in hc <==> k in ch) && (k in ch ==> hc[k] == Swap(ch[k])) {
      if k.ScalarKey? && k.scalar in s + d {
        var e := k.scalar;
        assert k == ScalarKey(e);
      }
    }
  }

  lemma SwapCollapse(ch: map<Key, Diff>)
    ensures Collapse(SwapChildren(DictDiff(ch))) == SwapResult(Collapse(ch))
  {
    var hc := SwapChildren(DictDiff(ch));
    if ch != map[] {
      var k0 :| k0 in ch;
      assert k0 in hc;
    } else {
      assert hc == map[];
    }
  }

  /** Comparing in the other direction gives the same diff with source and
      destination exchanged. */
  lemma {:induction false} DiffSwap(s: Canon, d: Canon)
    ensures DiffOf(d, s) == SwapResult(DiffOf(s, d))
    decreases s
  {
    if KindOf(s) != KindOf(d) {
    } else if s.CScalar? {
    } else if s.CDict? {
      forall k | k in s.entries && k in d.entries
        ensures DiffOf(d.entries[k], s.entries[k]) == SwapResult(DiffOf(s.entries[k], d.entries[k]))
      {
        DiffSwap(s.entries[k], d.entries[k]);
      }
      SwapDictChildren(s, d);
      SwapCollapse(DictChildren(s, d));
    } else {
      SwapSetChildren(s.elems, d.elems);
      SwapCollapse(SetChildren(s.elems, d.elems));
    }
  }

  /** The form of a `diff_json` result: a `TypeDiff` exactly when the runtime
      types differ, a `ValueDiff` exactly for unequal scalars of one type, a
      `DictDiff` exactly for unequal dictionaries or sets, never a bare `Miss`,
      and no empty `DictDiff` anywhere inside it. */
  lemma {:induction false} DiffShape(s: Canon, d: Canon)
    ensures var r := DiffOf(s, d);
      && (r.Some? && r.value.TypeDiff? <==> KindOf(s) != KindOf(d))
      && (r.Some? && r.value.ValueDiff? <==> KindOf(s) == KindOf(d) && s.CScalar? && s != d)
      && (r.Some? && r.value.DictDiff? <==> KindOf(s) == KindOf(d) && !s.CScalar? && s != d)
      && (r.Some? ==> !r.value.Miss? && Collapsed(r.value))
    decreases s
  {
    NoDiffIffEqual(s, d);
    if KindOf(s) == KindOf(d) && s.CDict? {
      var ch := DictChildren(s, d);
      forall k | k in ch ensures Collapsed(ch[k]) {
        DictChildrenAt(s, d, k);
        if k in s.entries && k in d.entries {
          assert ChildDiff(s, d, k) == DiffOf(s.entries[k], d.entries[k]);
          assert ch[k] == ChildDiff(s, d, k).value;
          DiffShape(s.entries[k], d.entries[k]);
        }
      }
      if ch != map[] {
        assert Collapsed(DictDiff(ch));
      }
    }
  }

  /** Each key of the union of two dictionaries is classified once: a key only
      in the destination is `Miss(SOURCE, destination[key])`, a key only in the
      source is `Miss(DESTINATION, source[key])`, and a key in both has a child
      exactly when its two values differ. */
  lemma DictChildrenClassify(s: Canon, d: Canon, k: Key)
    requires s.CDict? && d.CDict?
    ensures var ch := DictChildren(s, d);
      && (k !in s.entries && k in d.entries ==> k in ch && ch[k] == Miss(Source, d.entries[k]))
      && (k in s.entries && k !in d.entries ==> k in ch && ch[k] == Miss(Destination, s.entries[k]))
      && (k in s.entries && k in d.entries ==>
            (k in ch <==> s.entries[k] != d.entries[k])
            && (k in ch ==> Some(ch[k]) == DiffOf(s.entries[k], d.entries[k])))
      && (k !in s.entries && k !in d.entries ==> k !in ch)
  {
    if k in s.entries && k in d.entries {
      NoDiffIffEqual(s.entries[k], d.entries[k]);
    }
  }

  /** For two sets, a key has a child exactly when it is an element of one
      side only, and the child is `Miss` naming the side that lacks it, with
      the element itself as value; elements on both sides give nothing. */
  lemma SetChildrenClassify(s: set<Scalar>, d: set<Scalar>, k: Key)
    ensures k in SetChildren(s, d) <==> k.ScalarKey? && (k.scalar in s) != (k.scalar in d)
    ensures k in SetChildren(s, d) ==>
      SetChildren(s, d)[k] == Miss(if k.scalar in s then Destination else Source, CScalar(k.scalar))
  {
    if k.ScalarKey? && (k.scalar in s) != (k.scalar in d) {
      assert k == ScalarKey(k.scalar);
    }
  }
}

=== FILE: prepare.dfy ===
/** Preparation (`prepare_diff_input`): turns a raw tree into the canonical
    form the comparator accepts, driven by a `DiffConfig` tree. The behaviour
    is first given as specification functions (Prepare, Records, Entries) and
    then as the loop-based method the source runs (PrepareDiffInput), proved
    equal to them. */
module PrepareInput {
  import opened Wrappers
  import opened JsonValues

  /** A raw input value. `ROther` stands for a value of any type preparation
      does not support (`None`, a tuple, an object). Entries of a dictionary
      are kept in their insertion order. */
  datatype Raw =
    | ROther
    | RScalar(scalar: Scalar)
    | RList(items: seq<Raw>)
    | RDict(entries: seq<(Key, Raw)>)

  /** A normalised primary key: the `"__HASH__"` sentinel, or the candidate
      fields in order of preference. */
  datatype PrimaryKey = HashKey | Fields(names: seq<Key>)

  /** What a caller passes as `primary_key`: a single value or a list. */
  datatype PrimaryKeyArg = OneKey(key: Key) | KeyList(keys: seq<Key>)

  /** `DiffConfig`: how to prepare one position of the tree. `ignoreKeys` and
      `children` stand for `ignore_keys` and `children`, where `None` is the
      empty set or dictionary. */
  datatype DiffConfig = DiffConfig(primaryKey: PrimaryKey, ignoreKeys: set<Key>, children: map<Key, DiffConfig>)

  const HashSentinel: Key := ScalarKey(Str("__HASH__"))

  /** Python truthiness of the normalised `primary_key`. */
  predicate Truthy(pk: PrimaryKey) {
    pk.HashKey? || |pk.names| > 0
  }

  /** `DiffConfig.__init__`: the sentinel is kept, a list is kept, and any
      other value (`None` included) is wrapped in a one-element list. */
  function NewDiffConfig(primaryKey: PrimaryKeyArg, ignoredKeys: set<Key>, children: map<Key, DiffConfig>): (c: DiffConfig)
    ensures c.ignoreKeys == ignoredKeys && c.children == children
    ensures c.primaryKey.HashKey? <==> primaryKey == OneKey(HashSentinel)
    ensures Truthy(c.primaryKey) <==> primaryKey != KeyList([])
    ensures c.primaryKey.Fields? && primaryKey.OneKey? ==> c.primaryKey.names == [primaryKey.key]
    ensures c.primaryKey.Fields? && primaryKey.KeyList? ==> c.primaryKey.names == primaryKey.keys
  {
    if primaryKey == OneKey(HashSentinel) then
      DiffConfig(HashKey, ignoredKeys, children)
    else if primaryKey.KeyList? then
      DiffConfig(Fields(primaryKey.keys), ignoredKeys, children)
    else
      DiffConfig(Fields([primaryKey.key]), ignoredKeys, children)
  }

  /** The inputs this model covers: dictionaries have distinct keys (as every
      Python dictionary does), a list that starts with a scalar holds only
      scalars, and one that starts with a dictionary holds only dictionaries,
      at every depth, values under ignored keys included.
      Python accepts some inputs outside this shape and raises TypeError or
      NotImplementedError on others: `[1, None]` becomes the set `{1, None}`,
      which a canonical set of scalars cannot hold, and a later `None` record
      in a list of dictionaries raises NotImplementedError. A value under an
      ignored key is never read, so Python accepts any value there. */
  predicate WellFormed(data: Raw)
    decreases data
  {
    match data
    case RList(items) =>
      |items| > 0 ==>
        && (items[0].RScalar? ==> forall i | 0 <= i < |items| :: items[i].RScalar?)
        && (items[0].RDict? ==> forall i | 0 <= i < |items| :: items[i].RDict? && WellFormed(items[i]))
    case RDict(entries) =>
      && (forall i, j | 0 <= i < j < |entries| :: entries[i].0 != entries[j].0)
      && (forall i | 0 <= i < |entries| :: WellFormed(entries[i].1))
    case _ => true
  }

  /** A non-empty, well-formed list of dictionaries. */
  predicate RecordList(data: Raw) {
    data.RList? && WellFormed(data) && |data.items| > 0 && data.items[0].RDict?
  }

  /** `set(data)` for a list of scalars: every element, duplicates collapsed. */
  function ScalarSet(items: seq<Raw>): (s: set<Scalar>)
    requires forall i | 0 <= i < |items| :: items[i].RScalar?
    ensures forall x :: x in s <==> RScalar(x) in items
    ensures |s| <= |items|
  {
    if items == [] then {}
    else
      var rest := ScalarSet(items[1..]);
      assert forall x :: RScalar(x) in items <==> x == items[0].scalar || RScalar(x) in items[1..];
      {items[0].scalar} + rest
  }

  function ChildConfig(config: Option<DiffConfig>, key: Key): Option<DiffConfig> {
    if config.Some? && key in config.value.children then Some(config.value.children[key]) else None
  }

  predicate Ignored(config: Option<DiffConfig>, key: Key) {
    config.Some? && key in config.value.ignoreKeys
  }

  /** The result of `prepare_diff_input(data, config)`. `render` stands for
      Python's `str()` of a prepared record, used by the `"__HASH__"` key. */
  function Prepare(data: Raw, config: Option<DiffConfig>, render: Canon -> string): (r: Result<Canon, Error>)
    requires WellFormed(data)
    ensures r.Ok? && data.RDict? ==> r.value.CDict?
    decreases data, 2
  {
    match data
    case RList(items) =>
      if |items| == 0 then Ok(CDict(map[]))
      else if items[0].RScalar? then Ok(CSet(ScalarSet(items)))
      else if items[0].RDict? then
        if config.None? || !Truthy(config.value.primaryKey) then Err(MissingConfig)
        else
          var records :- Records(data, |items|, config.value, render);
          Ok(CDict(records))
      else Err(UnsupportedType)
    case RDict(entries) =>
      if |entries| == 0 then Ok(CDict(map[]))
      else
        var m :- Entries(data, |entries|, config, render);
        Ok(CDict(m))
    case RScalar(s) => Ok(CScalar(s))
    case ROther => Err(UnsupportedType)
  }

  /** The dictionary built from the first `n` entries of a raw dictionary:
      ignored keys dropped, every other value prepared under its child
      configuration. */
  function Entries(data: Raw, n: nat, config: Option<DiffConfig>, render: Canon -> string): Result<map<Key, Canon>, Error>
    requires data.RDict? && WellFormed(data) && n <= |data.entries|
    decreases data, 1, n
  {
    if n == 0 then Ok(map[])
    else
      var acc :- Entries(data, n - 1, config, render);
      var (key, value) := data.entries[n - 1];
      if Ignored(config, key) then Ok(acc)
      else
        var v :- Prepare(value, ChildConfig(config, key), render);
        Ok(acc[key := v])
  }

  /** The first field of `names` present in `m`, and its value. */
  function FirstPresent(m: map<Key, Canon>, names: seq<Key>): (r: Option<Canon>)
    ensures r.None? <==> forall i | 0 <= i < |names| :: names[i] !in m
    ensures r.Some? ==> exists i | 0 <= i < |names| ::
      && names[i] in m && r.value == m[names[i]]
      && forall j | 0 <= j < i :: names[j] !in m
  {
    if names == [] then None
    else if names[0] in m then Some(m[names[0]])
    else
      var r := FirstPresent(m, names[1..]);
      assert r.Some? ==> exists i | 0 <= i < |names[1..]| ::
        names[1..][i] in m && r.value == m[names[1..][i]] && forall j | 0 <= j < i :: names[1..][j] !in m;
      r
  }

  /** The key under which a prepared record is stored: `str(record)` for the
      sentinel, else the value of the first candidate field present, else
      `None`. A dictionary or set value cannot be a key (TypeError). */
  function RecordKey(converted: Canon, pk: PrimaryKey, render: Canon -> string): Result<Key, Error>
  {
    match pk
    case HashKey => Ok(ScalarKey(Str(render(converted))))
    case Fields(names) =>
      var found := if converted.CDict? then FirstPresent(converted.entries, names) else None;
      if found.None? then Ok(NoneKey)
      else if found.value.CScalar? then Ok(ScalarKey(found.value.scalar))
      else Err(Unhashable)
  }

  /** What `RecordKey` chooses: `str(record)` under the sentinel; otherwise
      `None` exactly when no candidate field is present, and else the value
      of the first candidate present, which must be a scalar to be a key. */
  lemma RecordKeyChoice(converted: Canon, pk: PrimaryKey, render: Canon -> string)
    ensures pk.HashKey? ==> RecordKey(converted, pk, render) == Ok(ScalarKey(Str(render(converted))))
    ensures pk.Fields? && converted.CDict? ==>
      (RecordKey(converted, pk, render) == Ok(NoneKey) <==>
        forall i | 0 <= i < |pk.names| :: pk.names[i] !in converted.entries)
    ensures pk.Fields? && converted.CDict? && RecordKey(converted, pk, render) != Ok(NoneKey) ==>
      exists i | 0 <= i < |pk.names| ::
        && pk.names[i] in converted.entries
        && (forall j | 0 <= j < i :: pk.names[j] !in converted.entries)
        && RecordKey(converted, pk, render) ==
             (if converted.entries[pk.names[i]].CScalar?
              then Ok(ScalarKey(converted.entries[pk.names[i]].scalar))
              else Err(Unhashable))
  {
  }

  /** The keyed dictionary built from the first `n` records: each record is
      prepared with the list's own configuration, and a record whose key is
      already present is dropped. */
  function Records(data: Raw, n: nat, cfg: DiffConfig, render: Canon -> string): Result<map<Key, Canon>, Error>
    requires RecordList(data) && n <= |data.items|
    decreases data, 1, n
  {
    if n == 0 then Ok(map[])
    else
      var acc :- Records(data, n - 1, cfg, render);
      var converted :- Prepare(data.items[n - 1], Some(cfg), render);
      var key :- RecordKey(converted, cfg.primaryKey, render);
      if key in acc then Ok(acc) else Ok(acc[key := converted])
  }

  /** One more record folded into a successful prefix. */
  lemma RecordsNext(data: Raw, i: nat, cfg: DiffConfig, render: Canon -> string)
    requires RecordList(data) && i < |data.items| && Records(data, i, cfg, render).Ok?
    ensures var acc := Records(data, i, cfg, render).value;
      var converted := Prepare(data.items[i], Some(cfg), render);
      Records(data, i + 1, cfg, render) ==
        if converted.Err? then Err(converted.error)
        else
          var key := RecordKey(converted.value, cfg.primaryKey, render);
          if key.Err? then Err(key.error)
          else if key.value in acc then Ok(acc)
          else Ok(acc[key.value := converted.value])
  {
  }

  /** One more entry folded into a successful prefix. */
  lemma EntriesNext(data: Raw, i: nat, config: Option<DiffConfig>, render: Canon -> string)
    requires data.RDict? && WellFormed(data) && i < |data.entries| && Entries(data, i, config, render).Ok?
    ensures var acc := Entries(data, i, config, render).value;
      var (key, value) := data.entries[i];
      var v := Prepare(value, ChildConfig(config, key), render);
      Entries(data, i + 1, config, render) ==
        if Ignored(config, key) then Ok(acc)
        else if v.Err? then Err(v.error)
        else Ok(acc[key := v.value])
  {
  }

  /** Each record adds at most one key, and the first record always adds
      one: a successful keyed list has between one and `n` entries. */
  lemma {:induction false} RecordsSize(data: Raw, n: nat, cfg: DiffConfig, render: Canon -> string)
    requires RecordList(data) && n <= |data.items|
    ensures Records(data, n, cfg, render).Ok? ==>
      |Records(data, n, cfg, render).value| <= n && (n > 0 ==> |Records(data, n, cfg, render).value| > 0)
    decreases n
  {
    if n > 0 && Records(data, n - 1, cfg, render).Ok? {
      RecordsSize(data, n - 1, cfg, render);
      RecordsNext(data, n - 1, cfg, render);
    }
  }

  /** Each entry adds at most one key. */
  lemma {:induction false} EntriesSize(data: Raw, n: nat, config: Option<DiffConfig>, render: Canon -> string)
    requires data.RDict? && WellFormed(data) && n <= |data.entries|
    ensures Entries(data, n, config, render).Ok? ==> |Entries(data, n, config, render).value| <= n
    decreases n
  {
    if n > 0 && Entries(data, n - 1, config, render).Ok? {
      EntriesSize(data, n - 1, config, render);
      EntriesNext(data, n - 1, config, render);
    }
  }

  lemma {:induction false} RecordsErrorSticks(data: Raw, i: nat, n: nat, cfg: DiffConfig, render: Canon -> string)
    requires RecordList(data) && i <= n <= |data.items|
    requires Records(data, i, cfg, render).Err?
    ensures Records(data, n, cfg, render) == Records(data, i, cfg, render)
    decreases n
  {
    if n > i {
      RecordsErrorSticks(data, i, n - 1, cfg, render);
    }
  }

  lemma {:induction false} EntriesErrorSticks(data: Raw, i: nat, n: nat, config: Option<DiffConfig>, render: Canon -> string)
    requires data.RDict? && WellFormed(data) && i <= n <= |data.entries|
    requires Entries(data, i, config, render).Err?
    ensures Entries(data, n, config, render) == Entries(data, i, config, render)
    decreases n
  {
    if n > i {
      EntriesErrorSticks(data, i, n - 1, config, render);
    }
  }

  /** The loop over `config.primary_key` that stops at the first field present. */
  method FindPrimaryKeyValue(converted: map<Key, Canon>, names: seq<Key>) returns (found: Option<Canon>)
    ensures found == FirstPresent(converted, names)
  {
    found := None;
    var i := 0;
    while i < |names|
      invariant 0 <= i <= |names|
      invariant FirstPresent(converted, names) == FirstPresent(converted, names[i..])
    {
      if names[i] in converted {
        found := Some(converted[names[i]]);
        break;
      }
      assert names[i..][1..] == names[i + 1..];
      i := i + 1;
    }
  }

  /** The key computation of the record loop: `str(converted)` for the
      sentinel, else the loop over the candidate fields. */
  method ComputeRecordKey(converted: Canon, pk: PrimaryKey, render: Canon -> string) returns (key: Result<Key, Error>)
    ensures key == RecordKey(converted, pk, render)
  {
    if pk.HashKey? {
      return Ok(ScalarKey(Str(render(converted))));
    }
    var found: Option<Canon> := None;
    if converted.CDict? {
      found := FindPrimaryKeyValue(converted.entries, pk.names);
    }
    if found.None? {
      return Ok(NoneKey);
    } else if found.value.CScalar? {
      return Ok(ScalarKey(found.value.scalar));
    } else {
      return Err(Unhashable);
    }
  }

  /** `prepare_diff_input`. */
  method PrepareDiffInput(data: Raw, config: Option<DiffConfig>, render: Canon -> string) returns (r: Result<Canon, Error>)
    requires WellFormed(data)
    ensures r == Prepare(data, config, render)
    decreases data, 2
  {
    if data.RList? {
      var items := data.items;
      if |items| == 0 {
        return Ok(CDict(map[]));
      } else if items[0].RScalar? {
        return Ok(CSet(ScalarSet(items)));
      } else if items[0].RDict? {
        if config.None? || !Truthy(config.value.primaryKey) {
          return Err(MissingConfig);
        }
        var records := PrepareRecords(data, config.value, render);
        if records.Err? {
          return Err(records.error);
        }
        return Ok(CDict(records.value));
      } else {
        return Err(UnsupportedType);
      }
    } else if data.RDict? {
      if |data.entries| == 0 {
        return Ok(CDict(map[]));
      }
      var m := PrepareEntries(data, config, render);
      if m.Err? {
        return Err(m.error);
      }
      return Ok(CDict(m.value));
    } else if data.RScalar? {
      return Ok(CScalar(data.scalar));
    } else {
      return Err(UnsupportedType);
    }
  }

  /** The list-of-dictionaries branch of `prepare_diff_input`: fills `result`
      record by record, keeping the first record seen for each key. */
  method PrepareRecords(data: Raw, cfg: DiffConfig, render: Canon -> string) returns (r: Result<map<Key, Canon>, Error>)
    requires RecordList(data)
    ensures r == Records(data, |data.items|, cfg, render)
    decreases data, 1
  {
    var items := data.items;
    var result: map<Key, Canon> := map[];
    var i := 0;
    while i < |items|
      invariant 0 <= i <= |items|
      invariant Records(data, i, cfg, render) == Ok(result)
    {
      var next := AddRecord(data, i, cfg, render, result);
      if next.Err? {
        RecordsErrorSticks(data, i + 1, |items|, cfg, render);
        return next;
      }
      result := next.value;
      i := i + 1;
    }
    return Ok(result);
  }

  /** One pass of the record loop: prepares record `i`, computes its key and
      stores it unless the key is already taken. */
  method AddRecord(data: Raw, i: nat, cfg: DiffConfig, render: Canon -> string, result: map<Key, Canon>)
    returns (r: Result<map<Key, Canon>, Error>)
    requires RecordList(data) && i < |data.items|
    requires Records(data, i, cfg, render) == Ok(result)
    ensures r == Records(data, i + 1, cfg, render)
    decreases data, 0
  {
    RecordsNext(data, i, cfg, render);
    var converted := PrepareDiffInput(data.items[i], Some(cfg), render);
    if converted.Err? {
      return Err(converted.error);
    }
    var key := ComputeRecordKey(converted.value, cfg.primaryKey, render);
    if key.Err? {
      return Err(key.error);
    }
    if key.value !in result {
      return Ok(result[key.value := converted.value]);
    }
    // otherwise the record is a duplicate: the source logs it and keeps the first one
    return Ok(result);
  }

  /** The dictionary branch of `prepare_diff_input`: copies every key that is
      not ignored, with its value prepared under the child configuration. */
  method PrepareEntries(data: Raw, config: Option<DiffConfig>, render: Canon -> string) returns (r: Result<map<Key, Canon>, Error>)
    requires data.RDict? && WellFormed(data)
    ensures r == Entries(data, |data.entries|, config, render)
    decreases data, 1
  {
    var entries := data.entries;
    var result: map<Key, Canon> := map[];
    var i := 0;
    while i < |entries|
      invariant 0 <= i <= |entries|
      invariant Entries(data, i, config, render) == Ok(result)
    {
      EntriesNext(data, i, config, render);
      var (key, value) := entries[i];
      if config.Some? && key in config.value.ignoreKeys {
        // an ignored key is dropped
      } else {
        var childConfig: Option<DiffConfig> := None;
        if config.Some? && key in config.value.children {
          childConfig := Some(config.value.children[key]);
        }
        var prepared := PrepareDiffInput(value, childConfig, render);
        if prepared.Err? {
          EntriesErrorSticks(data, i + 1, |entries|, config, render);
          return Err(prepared.error);
        }
        result := result[key := prepared.value];
      }
      i := i + 1;
    }
    return Ok(result);
  }
}

=== FILE: prepare_laws.dfy ===
/** What preparation guarantees: which records a keyed list keeps, what a
    prepared dictionary holds, and the consequence of the default
    configuration. */
module PrepareLaws {
  import opened Wrappers
  import opened JsonValues
  import opened PrepareInput

  /** The key record `j` of a list of dictionaries is stored under, or the
      error preparing it raises. */
  function RecordKeyAt(data: Raw, j: nat, cfg: DiffConfig, render: Canon -> string): Result<Key, Error>
    requires RecordList(data) && j < |data.items|
  {
    var converted :- Prepare(data.items[j], Some(cfg), render);
    RecordKey(converted, cfg.primaryKey, render)
  }

  /** Record `j` is the first one stored under its key. */
  predicate FirstWithKey(data: Raw, j: nat, cfg: DiffConfig, render: Canon -> string)
    requires RecordList(data) && j < |data.items|
  {
    && RecordKeyAt(data, j, cfg, render).Ok?
    && forall i | 0 <= i < j :: RecordKeyAt(data, i, cfg, render) != RecordKeyAt(data, j, cfg, render)
  }

  /** One step of the fold over the records: the first `n` records prepare
      when the first `n - 1` do and record `n - 1` yields a key; a key
      already present leaves the result as it was. */
  lemma RecordsStep(data: Raw, n: nat, cfg: DiffConfig, render: Canon -> string)
    requires RecordList(data) && 0 < n <= |data.items|
    ensures Records(data, n, cfg, render).Ok? <==>
      Records(data, n - 1, cfg, render).Ok? && RecordKeyAt(data, n - 1, cfg, render).Ok?
    ensures Records(data, n, cfg, render).Ok? ==>
      var acc := Records(data, n - 1, cfg, render).value;
      var key := RecordKeyAt(data, n - 1, cfg, render).value;
      Records(data, n, cfg, render).value ==
        if key in acc then acc else acc[key := Prepare(data.items[n - 1], Some(cfg), render).value]
  {
  }

  /** Every record yields a key. */
  predicate AllKeyed(data: Raw, n: nat, cfg: DiffConfig, render: Canon -> string)
    requires RecordList(data) && n <= |data.items|
  {
    forall j | 0 <= j < n :: RecordKeyAt(data, j, cfg, render).Ok?
  }

  /** The keys the first `n` records yield. */
  ghost function RecordKeySet(data: Raw, n: nat, cfg: DiffConfig, render: Canon -> string): set<Key>
    requires RecordList(data) && n <= |data.items|
  {
    set j | 0 <= j < n && RecordKeyAt(data, j, cfg, render).Ok? :: RecordKeyAt(data, j, cfg, render).value
  }

  /** Under each key `m` holds the first of the first `n` records with that key. */
  ghost predicate FirstsKept(data: Raw, n: nat, cfg: DiffConfig, render: Canon -> string, m: map<Key, Canon>)
    requires RecordList(data) && n <= |data.items|
  {
    forall j | 0 <= j < n && FirstWithKey(data, j, cfg, render) ::
      RecordKeyAt(data, j, cfg, render).value in m
      && Prepare(data.items[j], Some(cfg), render) == Ok(m[RecordKeyAt(data, j, cfg, render).value])
  }

  lemma {:induction false} RecordsOkIff(data: Raw, n: nat, cfg: DiffConfig, render: Canon -> string)
    requires RecordList(data) && n <= |data.items|
    ensures Records(data, n, cfg, render).Ok? <==> AllKeyed(data, n, cfg, render)
    decreases n
  {
    if n > 0 {
      RecordsOkIff(data, n - 1, cfg, render);
      RecordsStep(data, n, cfg, render);
    }
  }

  /** The key set grows by the key of the next record. */
  lemma RecordKeySetStep(data: Raw, n: nat, cfg: DiffConfig, render: Canon -> string)
    requires RecordList(data) && 0 < n <= |data.items|
    requires RecordKeyAt(data, n - 1, cfg, render).Ok?
    ensures RecordKeySet(data, n, cfg, render) ==
      RecordKeySet(data, n - 1, cfg, render) + {RecordKeyAt(data, n - 1, cfg, render).value}
  {
    var key := RecordKeyAt(data, n - 1, cfg, render).value;
    forall k | k in RecordKeySet(data, n, cfg, render)
      ensures k in RecordKeySet(data, n - 1, cfg, render) + {key}
    {
      var j :| 0 <= j < n && RecordKeyAt(data, j, cfg, render).Ok? && RecordKeyAt(data, j, cfg, render).value == k;
      if j < n - 1 {
        assert k in RecordKeySet(data, n - 1, cfg, render);
      }
    }
  }

  lemma {:induction false} RecordsKeys(data: Raw, n: nat, cfg: DiffConfig, render: Canon -> string)
    requires RecordList(data) && n <= |data.items|
    ensures Records(data, n, cfg, render).Ok? ==>
      Records(data, n, cfg, render).value.Keys == RecordKeySet(data, n, cfg, render)
    decreases n
  {
    if n > 0 && Records(data, n, cfg, render).Ok? {
      RecordsKeys(data, n - 1, cfg, render);
      RecordsStep(data, n, cfg, render);
      RecordKeySetStep(data, n, cfg, render);
    }
  }

  /** Folding record `n - 1` in keeps the first record under every key. */
  lemma FirstsExtend(data: Raw, n: nat, cfg: DiffConfig, render: Canon -> string, acc: map<Key, Canon>, m: map<Key, Canon>)
    requires RecordList(data) && 0 < n <= |data.items|
    requires RecordKeyAt(data, n - 1, cfg, render).Ok?
    requires acc.Keys == RecordKeySet(data, n - 1, cfg, render)
    requires FirstsKept(data, n - 1, cfg, render, acc)
    requires var key := RecordKeyAt(data, n - 1, cfg, render).value;
      m == if key in acc then acc else acc[key := Prepare(data.items[n - 1], Some(cfg), render).value]
    ensures FirstsKept(data, n, cfg, render, m)
  {
    var key := RecordKeyAt(data, n - 1, cfg, render).value;
    if key in acc {
      var i :| 0 <= i < n - 1 && RecordKeyAt(data, i, cfg, render).Ok? && RecordKeyAt(data, i, cfg, render).value == key;
      assert !FirstWithKey(data, n - 1, cfg, render);
    }
    forall j | 0 <= j < n - 1 && FirstWithKey(data, j, cfg, render)
      ensures RecordKeyAt(data, j, cfg, render).value in m
      ensures Prepare(data.items[j], Some(cfg), render) == Ok(m[RecordKeyAt(data, j, cfg, render).value])
    {
      assert RecordKeyAt(data, j, cfg, render).value in acc;
    }
  }

  lemma {:induction false} RecordsFirsts(data: Raw, n: nat, cfg: DiffConfig, render: Canon -> string)
    requires RecordList(data) && n <= |data.items|
    ensures Records(data, n, cfg, render).Ok? ==>
      FirstsKept(data, n, cfg, render, Records(data, n, cfg, render).value)
    decreases n
  {
    if n > 0 && Records(data, n, cfg, render).Ok? {
      RecordsFirsts(data, n - 1, cfg, render);
      RecordsKeys(data, n - 1, cfg, render);
      RecordsStep(data, n, cfg, render);
      FirstsExtend(data, n, cfg, render, Records(data, n - 1, cfg, render).value, Records(data, n, cfg, render).value);
    }
  }

  /** A list of dictionaries prepares without error exactly when every record
      does (there is no partial result); the keys of the result are the
      records' keys, and under each key sits the FIRST record that has it:
      later duplicates are dropped. */
  lemma RecordsFirstWins(data: Raw, n: nat, cfg: DiffConfig, render: Canon -> string)
    requires RecordList(data) && n <= |data.items|
    ensures Records(data, n, cfg, render).Ok? <==> AllKeyed(data, n, cfg, render)
    ensures Records(data, n, cfg, render).Ok? ==>
      && Records(data, n, cfg, render).value.Keys == RecordKeySet(data, n, cfg, render)
      && FirstsKept(data, n, cfg, render, Records(data, n, cfg, render).value)
  {
    RecordsOkIff(data, n, cfg, render);
    RecordsKeys(data, n, cfg, render);
    RecordsFirsts(data, n, cfg, render);
  }

  /** The prepared value of entry `j` of a raw dictionary. */
  function EntryValue(data: Raw, j: nat, config: Option<DiffConfig>, render: Canon -> string): Result<Canon, Error>
    requires data.RDict? && WellFormed(data) && j < |data.entries|
  {
    Prepare(data.entries[j].1, ChildConfig(config, data.entries[j].0), render)
  }

  /** One step of the fold over the entries: the first `n` entries prepare
      when the first `n - 1` do and entry `n - 1` is ignored or prepares. */
  lemma EntriesStep(data: Raw, n: nat, config: Option<DiffConfig>, render: Canon -> string)
    requires data.RDict? && WellFormed(data) && 0 < n <= |data.entries|
    ensures Entries(data, n, config, render).Ok? <==>
      && Entries(data, n - 1, config, render).Ok?
      && (Ignored(config, data.entries[n - 1].0) || EntryValue(data, n - 1, config, render).Ok?)
    ensures Entries(data, n, config, render).Ok? ==>
      var acc := Entries(data, n - 1, config, render).value;
      var key := data.entries[n - 1].0;
      Entries(data, n, config, render).value ==
        if Ignored(config, key) then acc else acc[key := EntryValue(data, n - 1, config, render).value]
  {
  }

  /** The keys among the first `n` entries that are not ignored. */
  ghost function KeptKeys(data: Raw, n: nat, config: Option<DiffConfig>): set<Key>
    requires data.RDict? && n <= |data.entries|
  {
    set j | 0 <= j < n && !Ignored(config, data.entries[j].0) :: data.entries[j].0
  }

  /** Every entry among the first `n` that is not ignored prepares. */
  predicate AllEntriesPrepare(data: Raw, n: nat, config: Option<DiffConfig>, render: Canon -> string)
    requires data.RDict? && WellFormed(data) && n <= |data.entries|
  {
    forall j | 0 <= j < n && !Ignored(config, data.entries[j].0) :: EntryValue(data, j, config, render).Ok?
  }

  /** `m` holds every entry among the first `n` that is not ignored, with its
      prepared value. */
  ghost predicate EntriesPrepared(data: Raw, n: nat, config: Option<DiffConfig>, render: Canon -> string, m: map<Key, Canon>)
    requires data.RDict? && WellFormed(data) && n <= |data.entries|
  {
    forall j | 0 <= j < n && !Ignored(config, data.entries[j].0) ::
      data.entries[j].0 in m && EntryValue(data, j, config, render) == Ok(m[data.entries[j].0])
  }

  lemma KeptKeysStep(data: Raw, n: nat, config: Option<DiffConfig>)
    requires data.RDict? && 0 < n <= |data.entries|
    ensures KeptKeys(data, n, config) ==
      KeptKeys(data, n - 1, config) + (if Ignored(config, data.entries[n - 1].0) then {} else {data.entries[n - 1].0})
  {
    forall k | k in KeptKeys(data, n, config)
      ensures k in KeptKeys(data, n - 1, config) + (if Ignored(config, data.entries[n - 1].0) then {} else {data.entries[n - 1].0})
    {
      var j :| 0 <= j < n && !Ignored(config, data.entries[j].0) && data.entries[j].0 == k;
      if j < n - 1 {
        assert k in KeptKeys(data, n - 1, config);
      }
    }
  }

  lemma {:induction false} EntriesOkIff(data: Raw, n: nat, config: Option<DiffConfig>, render: Canon -> string)
    requires data.RDict? && WellFormed(data) && n <= |data.entries|
    ensures Entries(data, n, config, render).Ok? <==> AllEntriesPrepare(data, n, config, render)
    decreases n
  {
    if n > 0 {
      EntriesOkIff(data, n - 1, config, render);
      EntriesStep(data, n, config, render);
    }
  }

  lemma {:induction false} EntriesKeys(data: Raw, n: nat, config: Option<DiffConfig>, render: Canon -> string)
    requires data.RDict? && WellFormed(data) && n <= |data.entries|
    ensures Entries(data, n, config, render).Ok? ==> Entries(data, n, config, render).value.Keys == KeptKeys(data, n, config)
    decreases n
  {
    if n > 0 && Entries(data, n, config, render).Ok? {
      EntriesKeys(data, n - 1, config, render);
      EntriesStep(data, n, config, render);
      KeptKeysStep(data, n, config);
    }
  }

  /** Folding entry `n - 1` in leaves the earlier entries' values alone: the
      keys are distinct. */
  lemma EntriesPreparedExtend(data: Raw, n: nat, config: Option<DiffConfig>, render: Canon -> string, acc: map<Key, Canon>, m: map<Key, Canon>)
    requires data.RDict? && WellFormed(data) && 0 < n <= |data.entries|
    requires EntriesPrepared(data, n - 1, config, render, acc)
    requires Ignored(config, data.entries[n - 1].0) || EntryValue(data, n - 1, config, render).Ok?
    requires m == if Ignored(config, data.entries[n - 1].0) then acc
      else acc[data.entries[n - 1].0 := EntryValue(data, n - 1, config, render).value]
    ensures EntriesPrepared(data, n, config, render, m)
  {
    forall j | 0 <= j < n - 1 && !Ignored(config, data.entries[j].0)
      ensures data.entries[j].0 in m && EntryValue(data, j, config, render) == Ok(m[data.entries[j].0])
    {
      assert data.entries[j].0 != data.entries[n - 1].0;
    }
  }

  lemma {:induction false} EntriesValues(data: Raw, n: nat, config: Option<DiffConfig>, render: Canon -> string)
    requires data.RDict? && WellFormed(data) && n <= |data.entries|
    ensures Entries(data, n, config, render).Ok? ==>
      EntriesPrepared(data, n, config, render, Entries(data, n, config, render).value)
    decreases n
  {
    if n > 0 && Entries(data, n, config, render).Ok? {
      EntriesValues(data, n - 1, config, render);
      EntriesStep(data, n, config, render);
      EntriesPreparedExtend(data, n, config, render,
        Entries(data, n - 1, config, render).value, Entries(data, n, config, render).value);
    }
  }

  /** A dictionary prepares without error exactly when every entry that is
      not ignored does; the result holds exactly the keys that are not
      ignored, each with its value prepared under `children.get(key)`. */
  lemma EntriesKeep(data: Raw, n: nat, config: Option<DiffConfig>, render: Canon -> string)
    requires data.RDict? && WellFormed(data) && n <= |data.entries|
    ensures Entries(data, n, config, render).Ok? <==> AllEntriesPrepare(data, n, config, render)
    ensures Entries(data, n, config, render).Ok? ==>
      && Entries(data, n, config, render).value.Keys == KeptKeys(data, n, config)
      && EntriesPrepared(data, n, config, render, Entries(data, n, config, render).value)
  {
    EntriesOkIff(data, n, config, render);
    EntriesKeys(data, n, config, render);
    EntriesValues(data, n, config, render);
  }

  /** The keys of a prepared dictionary are among its raw keys. */
  lemma PreparedKeysAreRaw(data: Raw, config: Option<DiffConfig>, render: Canon -> string, k: Key)
    requires data.RDict? && WellFormed(data)
    requires Prepare(data, config, render).Ok?
    requires k in Prepare(data, config, render).value.entries
    ensures exists j | 0 <= j < |data.entries| :: data.entries[j].0 == k
  {
    EntriesKeep(data, |data.entries|, config, render);
  }

  /** With `DiffConfig()` the primary key is `[None]`, which passes the
      configuration check; a record has no `None` field, so every record is
      stored under `None` and only the first record survives. */
  lemma DefaultConfigKeepsFirstRecord(items: seq<Raw>, render: Canon -> string)
    requires RecordList(RList(items))
    requires forall j, e | 0 <= j < |items| && e in items[j].entries :: e.0 != NoneKey
    ensures var cfg := NewDiffConfig(OneKey(NoneKey), {}, map[]);
      var r := Prepare(RList(items), Some(cfg), render);
      r.Ok? ==>
        && r.value.CDict?
        && r.value.entries.Keys == {NoneKey}
        && Prepare(items[0], Some(cfg), render) == Ok(r.value.entries[NoneKey])
  {
    var cfg := NewDiffConfig(OneKey(NoneKey), {}, map[]);
    var data := RList(items);
    var r := Prepare(data, Some(cfg), render);
    RecordsFirstWins(data, |items|, cfg, render);
    if r.Ok? {
      var m := r.value.entries;
      assert m == Records(data, |items|, cfg, render).value;
      forall j | 0 <= j < |items| ensures RecordKeyAt(data, j, cfg, render) == Ok(NoneKey) {
        var c := Prepare(items[j], Some(cfg), render).value;
        if NoneKey in c.entries {
          PreparedKeysAreRaw(items[j], Some(cfg), render, NoneKey);
          assert false;
        }
        assert FirstPresent(c.entries, [NoneKey]) == None;
      }
      assert FirstWithKey(data, 0, cfg, render);
      assert m.Keys == {NoneKey} by {
        assert RecordKeyAt(data, 0, cfg, render) == Ok(NoneKey);
      }
    }
  }

  /** A list that starts with a scalar prepares to the set of its elements:
      every element is in it, duplicates collapse, and nothing else is. */
  lemma PrepareScalarList(items: seq<Raw>, config: Option<DiffConfig>, render: Canon -> string)
    requires WellFormed(RList(items)) && |items| > 0 && items[0].RScalar?
    ensures Prepare(RList(items), config, render).Ok?
    ensures var r := Prepare(RList(items), config, render).value;
      && r.CSet?
      && (forall x :: x in r.elems <==> RScalar(x) in items)
      && |r.elems| <= |items|
  {
  }

  /** A list of dictionaries without a configuration whose primary key is
      truthy fails before any record is prepared. */
  lemma PrepareNeedsConfig(data: Raw, config: Option<DiffConfig>, render: Canon -> string)
    requires RecordList(data)
    requires config.None? || !Truthy(config.value.primaryKey)
    ensures Prepare(data, config, render) == Err(MissingConfig)
  {
  }

  /** Preparing a dictionary, the empty one included: it succeeds exactly
      when every entry that is not ignored prepares; the result holds exactly
      the keys that are not ignored, each with its value prepared under
      `children.get(key)`. */
  lemma PrepareDict(data: Raw, config: Option<DiffConfig>, render: Canon -> string)
    requires data.RDict? && WellFormed(data)
    ensures Prepare(data, config, render).Ok? <==> AllEntriesPrepare(data, |data.entries|, config, render)
    ensures Prepare(data, config, render).Ok? ==>
      && Prepare(data, config, render).value.entries.Keys == KeptKeys(data, |data.entries|, config)
      && EntriesPrepared(data, |data.entries|, config, render, Prepare(data, config, render).value.entries)
  {
    EntriesKeep(data, |data.entries|, config, render);
  }

  /** Preparing a list of dictionaries under a usable configuration: it
      succeeds exactly when every record prepares and yields a key; the keys
      of the result are the records' keys, and each holds the first record
      with that key. */
  lemma PrepareKeyedList(data: Raw, cfg: DiffConfig, render: Canon -> string)
    requires RecordList(data) && Truthy(cfg.primaryKey)
    ensures Prepare(data, Some(cfg), render).Ok? <==> AllKeyed(data, |data.items|, cfg, render)
    ensures Prepare(data, Some(cfg), render).Ok? ==>
      var m := Prepare(data, Some(cfg), render).value.entries;
      && m.Keys == RecordKeySet(data, |data.items|, cfg, render)
      && FirstsKept(data, |data.items|, cfg, render, m)
  {
    RecordsFirstWins(data, |data.items|, cfg, render);
  }
}

=== FILE: render.dfy ===
/** The shape of `DictDiff.__str__`: children are rendered in ascending key
    order, `sorted(self.children.keys())`, recursively. The text of each leaf
    node is not modelled; what is modelled is which keys Python can sort, the
    order it puts them in, and the TypeError it raises otherwise. */
module DiffRender {
  import opened Wrappers
  import opened JsonValues
  import opened JsonDiff

  predicate IsNumber(k: Key) {
    k.ScalarKey? && !k.scalar.Str?
  }

  predicate IsString(k: Key) {
    k.ScalarKey? && k.scalar.Str?
  }

  /** Python 3 defines `<` between two numbers (bool, int, float) and between
      two strings; any other pair, `None` included, raises TypeError. */
  predicate Comparable(a: Key, b: Key) {
    (IsNumber(a) && IsNumber(b)) || (IsString(a) && IsString(b))
  }

  function NumValue(s: Scalar): real
    requires !s.Str?
  {
    match s
    case Bool(b) => if b then 1.0 else 0.0
    case Int(i) => i as real
    case Float(x) => x
  }

  /** Breaks ties between numerically equal keys of different types, which a
      Python dictionary cannot hold side by side (see README). */
  function TypeRank(s: Scalar): nat {
    match s
    case Bool(_) => 0
    case Int(_) => 1
    case Float(_) => 2
    case Str(_) => 3
  }

  /** Python's string order: lexicographic by code point. */
  predicate StrLess(a: string, b: string)
    decreases |a|
  {
    if |a| == 0 then |b| > 0
    else if |b| == 0 then false
    else if a[0] != b[0] then a[0] < b[0]
    else StrLess(a[1..], b[1..])
  }

  predicate KeyLess(a: Key, b: Key) {
    if IsNumber(a) && IsNumber(b) then
      var x, y := NumValue(a.scalar), NumValue(b.scalar);
      x < y || (x == y && TypeRank(a.scalar) < TypeRank(b.scalar))
    else if IsString(a) && IsString(b) then
      StrLess(a.scalar.s, b.scalar.s)
    else
      false
  }

  lemma {:induction false} StrLessIrreflexive(a: string)
    ensures !StrLess(a, a)
    decreases |a|
  {
    if |a| > 0 {
      StrLessIrreflexive(a[1..]);
    }
  }

  lemma {:induction false} StrLessTransitive(a: string, b: string, c: string)
    requires StrLess(a, b) && StrLess(b, c)
    ensures StrLess(a, c)
    decreases |a|
  {
    if |a| > 0 && a[0] == b[0] && b[0] == c[0] {
      StrLessTransitive(a[1..], b[1..], c[1..]);
    }
  }

  lemma {:induction false} StrLessTotal(a: string, b: string)
    requires a != b
    ensures StrLess(a, b) || StrLess(b, a)
    decreases |a|
  {
    if |a| > 0 && |b| > 0 && a[0] == b[0] {
      assert a == [a[0]] + a[1..] && b == [b[0]] + b[1..];
      StrLessTotal(a[1..], b[1..]);
    }
  }

  /** On keys Python can compare, KeyLess is a strict total order. */
  lemma KeyLessOrder(a: Key, b: Key, c: Key)
    ensures !KeyLess(a, a)
    ensures Comparable(a, b) && a != b ==> KeyLess(a, b) || KeyLess(b, a)
    ensures KeyLess(a, b) && KeyLess(b, c) ==> KeyLess(a, c)
  {
    if IsString(a) {
      StrLessIrreflexive(a.scalar.s);
    }
    if IsString(a) && IsString(b) && a != b {
      StrLessTotal(a.scalar.s, b.scalar.s);
    }
    if IsString(a) && IsString(b) && IsString(c) && KeyLess(a, b) && KeyLess(b, c) {
      StrLessTransitive(a.scalar.s, b.scalar.s, c.scalar.s);
    }
  }

  predicate AllComparable(keys: set<Key>) {
    forall a, b | a in keys && b in keys && a != b :: Comparable(a, b)
  }

  predicate Ascending(s: seq<Key>) {
    forall i, j | 0 <= i < j < |s| :: KeyLess(s[i], s[j])
  }

  lemma {:induction false} LeastExists(keys: set<Key>)
    requires keys != {} && AllComparable(keys)
    ensures exists m :: m in keys && forall k | k in keys && k != m :: KeyLess(m, k)
    decreases |keys|
  {
    var x :| x in keys;
    var rest := keys - {x};
    if rest == {} {
      assert keys == {x};
    } else {
      LeastExists(rest);
      var m :| m in rest && forall k | k in rest && k != m :: KeyLess(m, k);
      KeyLessOrder(x, m, x);
      if KeyLess(x, m) {
        forall k | k in keys && k != x ensures KeyLess(x, k) {
          if k != m {
            KeyLessOrder(x, m, k);
          }
        }
      } else {
        assert forall k | k in keys && k != m :: KeyLess(m, k);
      }
    }
  }

  /** The keys in ascending order. */
  ghost function SortedKeys(keys: set<Key>): (r: seq<Key>)
    requires AllComparable(keys)
    ensures Ascending(r)
    ensures forall k :: k in r <==> k in keys
    decreases |keys|
  {
    if keys == {} then []
    else
      LeastExists(keys);
      var m :| m in keys && forall k | k in keys && k != m :: KeyLess(m, k);
      var tail := SortedKeys(keys - {m});
      assert forall j | 0 <= j < |tail| :: KeyLess(m, tail[j]) by {
        forall j | 0 <= j < |tail| ensures KeyLess(m, tail[j]) {
          assert tail[j] in keys - {m};
        }
      }
      [m] + tail
  }

  /** `sorted(self.children.keys())`: the children's keys in ascending
      order, or TypeError when two of them cannot be compared. */
  ghost function ChildOrder(children: map<Key, Diff>): (r: Result<seq<Key>, Error>)
    ensures r.Ok? <==> AllComparable(children.Keys)
    ensures r.Err? ==> r.error == Unorderable
    ensures r.Ok? ==> Ascending(r.value) && forall k :: k in r.value <==> k in children
  {
    if AllComparable(children.Keys) then Ok(SortedKeys(children.Keys)) else Err(Unorderable)
  }

  lemma AscendingHead(s: seq<Key>, k: Key)
    requires Ascending(s) && k in s
    ensures k == s[0] || KeyLess(s[0], k)
  {
    var i :| 0 <= i < |s| && s[i] == k;
    if i > 0 {
      assert KeyLess(s[0], s[i]);
    }
  }

  lemma AscendingTail(s: seq<Key>, k: Key)
    requires Ascending(s) && |s| > 0
    ensures k in s[1..] <==> k in s && k != s[0]
  {
    KeyLessOrder(s[0], s[0], s[0]);
    if k in s[1..] {
      var i :| 1 <= i < |s| && s[i] == k;
      assert KeyLess(s[0], s[i]);
    }
    if k in s && k != s[0] {
      var i :| 0 <= i < |s| && s[i] == k;
      assert s[1..][i - 1] == k;
    }
  }

  /** Ascending order is the only one: two ascending sequences that hold the
      same keys are equal, so the rendering of a `DictDiff` does not depend on
      the order in which its children were added. */
  lemma {:induction false} AscendingUnique(a: seq<Key>, b: seq<Key>)
    requires Ascending(a) && Ascending(b)
    requires forall k :: k in a <==> k in b
    ensures a == b
    decreases |a|
  {
    if |a| > 0 {
      assert a[0] in b;
    }
    if |b| > 0 {
      assert b[0] in a;
    }
    if |a| > 0 {
      AscendingHead(b, a[0]);
      AscendingHead(a, b[0]);
      KeyLessOrder(a[0], b[0], a[0]);
      assert a[0] == b[0];
      forall k ensures k in a[1..] <==> k in b[1..] {
        AscendingTail(a, k);
        AscendingTail(b, k);
      }
      AscendingUnique(a[1..], b[1..]);
      assert a == [a[0]] + a[1..] && b == [b[0]] + b[1..];
    }
  }

  /** The structure of `str(diff)`: a leaf node is rendered by its own text
      (not modelled); a `DictDiff` renders its children in ascending key
      order. */
  datatype Shape = Text(node: Diff) | Children(entries: seq<(Key, Shape)>)

  function KeysOf(entries: seq<(Key, Shape)>): (r: seq<Key>)
    ensures |r| == |entries| && forall i | 0 <= i < |r| :: r[i] == entries[i].0
  {
    seq(|entries|, i requires 0 <= i < |entries| => entries[i].0)
  }

  /** `str(diff)`; TypeError when some `DictDiff` in the tree has keys that
      cannot be sorted. A leaf's own text never fails. */
  ghost function Render(diff: Diff): (r: Result<Shape, Error>)
    ensures !diff.DictDiff? ==> r == Ok(Text(diff))
    ensures diff.DictDiff? && !AllComparable(diff.children.Keys) ==> r == Err(Unorderable)
    ensures r.Err? ==> r.error == Unorderable
    ensures r.Ok? && diff.DictDiff? ==>
      && r.value.Children?
      && Ascending(KeysOf(r.value.entries))
      && forall k :: k in KeysOf(r.value.entries) <==> k in diff.children
    decreases diff, 1, 0
  {
    if !diff.DictDiff? then Ok(Text(diff))
    else
      var order :- ChildOrder(diff.children);
      var entries :- RenderEntries(diff, order);
      Ok(Children(entries))
  }

  ghost function RenderEntries(parent: Diff, order: seq<Key>): (r: Result<seq<(Key, Shape)>, Error>)
    requires parent.DictDiff?
    requires forall k | k in order :: k in parent.children
    ensures r.Ok? ==> KeysOf(r.value) == order
    ensures r.Err? ==> r.error == Unorderable
    decreases parent, 0, |order|
  {
    if order == [] then Ok([])
    else
      var head :- Render(parent.children[order[0]]);
      var tail :- RenderEntries(parent, order[1..]);
      Ok([(order[0], head)] + tail)
  }

  /** Every `DictDiff` in the tree has keys that `sorted` accepts. */
  ghost predicate Sortable(diff: Diff)
    decreases diff
  {
    diff.DictDiff? ==>
      && AllComparable(diff.children.Keys)
      && forall k | k in diff.children :: Sortable(diff.children[k])
  }

  /** `str(diff)` succeeds exactly when no level of the tree has two keys
      that cannot be compared; otherwise it raises TypeError. */
  lemma {:induction false} RenderOkIff(diff: Diff)
    ensures Render(diff).Ok? <==> Sortable(diff)
    decreases diff, 1, 0
  {
    if diff.DictDiff? && AllComparable(diff.children.Keys) {
      var order := ChildOrder(diff.children).value;
      RenderEntriesOkIff(diff, order);
    }
  }

  lemma {:induction false} RenderEntriesOkIff(parent: Diff, order: seq<Key>)
    requires parent.DictDiff?
    requires forall k | k in order :: k in parent.children
    ensures RenderEntries(parent, order).Ok? <==>
      forall k | k in order :: Sortable(parent.children[k])
    decreases parent, 0, |order|
  {
    if order != [] {
      RenderOkIff(parent.children[order[0]]);
      RenderEntriesOkIff(parent, order[1..]);
      assert forall k | k in order :: k == order[0] || k in order[1..];
    }
  }
}

=== FILE: scenarios.dfy ===
/** Worked examples of the differ and of preparation on small concrete
    inputs, each checked against the definitions. */
module DiffScenarios {
  import opened Wrappers
  import opened JsonValues
  import opened JsonDiff
  import opened DiffLaws
  import opened PrepareInput

  function I(n: int): Canon { CScalar(Int(n)) }
  function K(name: string): Key { ScalarKey(Str(name)) }

  /** `1` against `1.0`, and `True` against `1`: the types differ, so the
      values are never compared. */
  lemma TypeMismatchScenario()
    ensures DiffOf(I(1), CScalar(Float(1.0))) == Some(TypeDiff(I(1), CScalar(Float(1.0))))
    ensures DiffOf(CScalar(Bool(true)), I(1)) == Some(TypeDiff(CScalar(Bool(true)), I(1)))
  {
  }

  /** `{"a": 1}` against `{}`: one child, the value missing on the
      destination side. */
  lemma MissingKeyScenario()
    ensures DiffOf(CDict(map[K("a") := I(1)]), CDict(map[])) ==
      Some(DictDiff(map[K("a") := Miss(Destination, I(1))]))
  {
    var s, d := CDict(map[K("a") := I(1)]), CDict(map[]);
    assert ChildDiff(s, d, K("a")) == Some(Miss(Destination, I(1)));
    assert DictChildren(s, d) == map[K("a") := Miss(Destination, I(1))];
  }

  /** `{1, 2, 3}` against `{2, 3, 4}`: `1` is missing on the destination side,
      `4` on the source side, and the shared elements give nothing. */
  lemma SetScenario()
    ensures DiffOf(CSet({Int(1), Int(2), Int(3)}), CSet({Int(2), Int(3), Int(4)})) ==
      Some(DictDiff(map[ScalarKey(Int(1)) := Miss(Destination, I(1)), ScalarKey(Int(4)) := Miss(Source, I(4))]))
  {
    var s, d := {Int(1), Int(2), Int(3)}, {Int(2), Int(3), Int(4)};
    var ch := map[ScalarKey(Int(1)) := Miss(Destination, I(1)), ScalarKey(Int(4)) := Miss(Source, I(4))];
    assert forall e :: e in s + d && (e !in s || e !in d) <==> e == Int(1) || e == Int(4);
    assert SetChildren(s, d) == ch;
  }

  /** `{"a": {"b": 1}}` against itself: the inner dictionary has no children,
      so no `DictDiff` appears at either level. */
  lemma NestedCollapseScenario()
    ensures DiffOf(CDict(map[K("a") := CDict(map[K("b") := I(1)])]),
                   CDict(map[K("a") := CDict(map[K("b") := I(1)])])).None?
  {
    Reflexive(CDict(map[K("a") := CDict(map[K("b") := I(1)])]));
  }

  function R(n: int): Raw { RScalar(Int(n)) }

  lemma ScalarSetScenario()
    ensures ScalarSet([R(3), R(1), R(2), R(1)]) == {Int(1), Int(2), Int(3)}
  {
    var items := [R(3), R(1), R(2), R(1)];
    assert ScalarSet(items[3..]) == {Int(1)};
    assert ScalarSet(items[2..]) == {Int(1), Int(2)};
    assert ScalarSet(items[1..]) == {Int(1), Int(2)};
  }

  /** `[3, 1, 2, 1]` prepares to the set `{1, 2, 3}`. */
  lemma ScalarListScenario(render: Canon -> string)
    ensures Prepare(RList([R(3), R(1), R(2), R(1)]), None, render) == Ok(CSet({Int(1), Int(2), Int(3)}))
  {
    ScalarSetScenario();
  }

  /** `{"a": 1, "b": 2}` with `ignore_keys={"b"}` prepares to `{"a": 1}`. */
  lemma IgnoreKeysScenario(render: Canon -> string)
    ensures Prepare(RDict([(K("a"), R(1)), (K("b"), R(2))]),
                    Some(NewDiffConfig(OneKey(NoneKey), {K("b")}, map[])), render)
      == Ok(CDict(map[K("a") := I(1)]))
  {
    var data := RDict([(K("a"), R(1)), (K("b"), R(2))]);
    var config := Some(NewDiffConfig(OneKey(NoneKey), {K("b")}, map[]));
    assert K("a") != K("b");
    assert Entries(data, 1, config, render) == Ok(map[K("a") := I(1)]);
  }

  function Rec(id: int, v: string): Raw { RDict([(K("id"), R(id)), (K("v"), RScalar(Str(v)))]) }
  function CRec(id: int, v: string): Canon { CDict(map[K("id") := I(id), K("v") := CScalar(Str(v))]) }

  lemma PrepareRecord(id: int, v: string, cfg: DiffConfig, render: Canon -> string)
    requires cfg.ignoreKeys == {} && cfg.children == map[]
    ensures WellFormed(Rec(id, v))
    ensures Prepare(Rec(id, v), Some(cfg), render) == Ok(CRec(id, v))
  {
    var rec := Rec(id, v);
    assert K("id") != K("v");
    assert Entries(rec, 1, Some(cfg), render) == Ok(map[K("id") := I(id)]);
    assert Entries(rec, 2, Some(cfg), render) == Ok(map[K("id") := I(id), K("v") := CScalar(Str(v))]);
  }

  lemma RecordKeyScenario(id: int, v: string, render: Canon -> string)
    ensures RecordKey(CRec(id, v), Fields([K("id")]), render) == Ok(ScalarKey(Int(id)))
  {
    assert K("id") in CRec(id, v).entries;
  }

  function Records3(): Raw { RList([Rec(1, "x"), Rec(2, "y"), Rec(1, "z")]) }

  lemma Records3WellFormed()
    ensures WellFormed(Records3())
  {
    assert K("id") != K("v");
  }

  lemma KeyedFirstScenario(render: Canon -> string)
    ensures WellFormed(Records3())
    ensures Records(Records3(), 1, NewDiffConfig(OneKey(K("id")), {}, map[]), render) ==
      Ok(map[ScalarKey(Int(1)) := CRec(1, "x")])
  {
    var cfg := NewDiffConfig(OneKey(K("id")), {}, map[]);
    Records3WellFormed();
    PrepareRecord(1, "x", cfg, render);
    RecordKeyScenario(1, "x", render);
  }

  lemma KeyedPrefixScenario(render: Canon -> string)
    ensures WellFormed(Records3())
    ensures Records(Records3(), 2, NewDiffConfig(OneKey(K("id")), {}, map[]), render) ==
      Ok(map[ScalarKey(Int(1)) := CRec(1, "x"), ScalarKey(Int(2)) := CRec(2, "y")])
  {
    var cfg := NewDiffConfig(OneKey(K("id")), {}, map[]);
    KeyedFirstScenario(render);
    PrepareRecord(2, "y", cfg, render);
    RecordKeyScenario(2, "y", render);
  }

  /** Records `{"id": 1, "v": "x"}`, `{"id": 2, "v": "y"}`, `{"id": 1, "v": "z"}`
      keyed by `"id"`: the third record repeats id 1 and is dropped. */
  lemma KeyedListScenario(render: Canon -> string)
    ensures Prepare(Records3(), Some(NewDiffConfig(OneKey(K("id")), {}, map[])), render)
      == Ok(CDict(map[ScalarKey(Int(1)) := CRec(1, "x"), ScalarKey(Int(2)) := CRec(2, "y")]))
  {
    var cfg := NewDiffConfig(OneKey(K("id")), {}, map[]);
    KeyedPrefixScenario(render);
    PrepareRecord(1, "z", cfg, render);
    RecordKeyScenario(1, "z", render);
    assert Records(Records3(), 3, cfg, render) == Records(Records3(), 2, cfg, render);
  }

  /** A list of dictionaries prepared without a configuration fails. */
  lemma MissingConfigScenario(render: Canon -> string)
    ensures Prepare(RList([Rec(1, "x")]), None, render) == Err(MissingConfig)
  {
  }
}

=== FILE: values.dfy ===
/** The values the differ works on: Python scalars, dictionary keys and the
    canonical trees that preparation produces and the comparator consumes. */
module JsonValues {

  /** A scalar the differ accepts. The constructor is the value's exact Python
      type: `bool` is a kind of its own (`type(True) != type(1)`), and a float
      is kept as the real number it denotes. */
  datatype Scalar = Int(i: int) | Bool(b: bool) | Float(x: real) | Str(s: string)

  /** A dictionary key: a scalar, or `None`, which is the key a record gets
      when none of the candidate primary-key fields is present in it. */
  datatype Key = NoneKey | ScalarKey(scalar: Scalar)

  /** A canonical value: a scalar, a dictionary, or a set of scalars (what a
      list of scalars becomes). */
  datatype Canon =
    | CScalar(scalar: Scalar)
    | CDict(entries: map<Key, Canon>)
    | CSet(elems: set<Scalar>)

  /** The Python runtime type of a canonical value, as `type(v)` reports it. */
  datatype Kind = IntKind | BoolKind | FloatKind | StrKind | DictKind | SetKind

  function KindOf(v: Canon): (k: Kind)
    ensures v.CScalar? <==> k != DictKind && k != SetKind
    ensures v.CDict? <==> k == DictKind
  {
    match v
    case CScalar(Int(_)) => IntKind
    case CScalar(Bool(_)) => BoolKind
    case CScalar(Float(_)) => FloatKind
    case CScalar(Str(_)) => StrKind
    case CDict(_) => DictKind
    case CSet(_) => SetKind
  }

  /** The exceptions the core raises. */
  datatype Error =
    | UnsupportedType   // NotImplementedError: a value of a type the differ does not support
    | MissingConfig     // AssertionError: a list of dicts without a usable primary key
    | Unhashable        // TypeError: a primary-key value that is a dict or a set
    | Unorderable       // TypeError: `sorted` meets two keys Python cannot compare
}

=== FILE: wrappers.dfy ===
/** Option and Result, the failure-compatible wrappers the model uses for
    "no diff" and for the exceptions the differ raises. */
module Wrappers {

  datatype Option<+T> = None | Some(value: T)

  datatype Result<+T, +E> = Ok(value: T) | Err(error: E) {
    predicate IsFailure() {
      Err?
    }

    function PropagateFailure<U>(): Result<U, E>
      requires Err?
    {
      Err(error)
    }

    function Extract(): T
      requires Ok?
    {
      value
    }
  }
}
